=== FILE: README.md ===
# Slack libpurple plugin: command and thread core

A Dafny model of the local command handling of the Slack protocol plugin for libpurple
(the library behind Pidgin), from `slack-cmd.c` and `slack-thread.c`. It covers:

- the commands the plugin forwards to the server (`chat.command`, `/edit`, `/delete`) and
  the rendering of the server's reply;
- the `/thread` (`/th`) argument grammar and its six outcomes, and `/getthread` (`/gt`);
- the per-conversation `thread_ts` state: switching to a thread or to the channel, and
  posting one message elsewhere by setting `thread_ts` temporarily and restoring it;
- `slack_is_slack_ts`, the recogniser of literal Slack timestamps such as `1234.5678`;
- resolving a clock time to a thread through a `conversations.history` query over one
  second, and the two reply handlers (`slack_thread_cb`, `slack_latest_thread_cb`);
- the derivation of command names from the catalogue and the registration and
  unregistration of the plugin's commands.

Network calls and UI writes are not performed. Each becomes an `Effect` appended to a
log (`Objects.Effect`): an API request, a conversation write, a message send, or a
replies fetch. A `Send` effect records the `thread_ts` in force while the message was
sent, so "temporarily set, send, restore" can be observed. Collaborators that depend on
the locale, the clock or code outside these two files are parameters:

- the thread colour, the `strftime` rendering and the time-string parser (`SlackThread.Env`);
- `slack_ts_cmp` (a `cmp` function);
- the markup conversion of a command reply (`render`).

A C `NULL` is `None` of `Support.Option`. A `string` stands for the bytes of a C string
(UTF-8 in the plugin), one `char` per byte, with no NUL byte. Byte counts such as the
15-byte limit on command names are therefore exact. All the characters the code tests for
(digits, '.', ' ', ':', '/') are ASCII.

Modules, one per concern:

| module | file | models |
|---|---|---|
| `Support` | support.dfy | `Option`, first-index search, digits, `%ld` formatting |
| `Objects` | objects.dfy | conversation objects, thread state, requests, effects |
| `SlackTs` | slack_ts.dfy | `slack_is_slack_ts` |
| `ThreadArgs` | thread_args.dfy | `g_strsplit(line, " ", 2)` and the `cmd_thread` grammar |
| `SlackThread` | slack_thread.dfy | `thread_ts` transitions, timestamp dispatch, `slack_thread_cb` |
| `LatestThread` | latest_thread.dfy | `slack_latest_thread_cb` |
| `SlackCmd` | slack_cmd.dfy | `send_cmd`, `send_cmd_cb`, `cmd_edit`, `cmd_delete`, `cmd_thread`, `cmd_getthread` |
| `CmdTable` | cmd_table.dfy | command-name derivation, `slack_cmd_register`, `slack_cmd_unregister` |

Two edge cases of the code, as the model has them:

- A thread argument that starts with a space has an empty first word. The C compares
  that word's first character (the terminating NUL) with `'/'`, which fails. The argument
  therefore takes the timestamp branch, with an empty timestamp.
- A derived command name can be 15 bytes long. The buffer is 16 bytes and the loop stops
  at `sizeof(cmdbuf) - 1`.

## Model

| member | source | states |
|---|---|---|
| Support.Decimal | slack-thread.c:298-300 | `%ld` of a `time_t`: a minus sign for a negative number, then digits with no leading zero (0 is written "0") that read back as the number; no dot |
| Support.NatDecimalRoundTrip | slack-thread.c:298-300 | the decimal digits of a natural number read back as that number |
| Objects.ThreadOf | slack-thread.c:44-50 | a channel or a user gives its thread; any other object gives none |
| Objects.WithThreadTs | slack-thread.c:143-144 | assigning `thread_ts` changes only the thread's timestamp, and assigning the current value changes nothing |
| Objects.Delivery | slack-thread.c:127-138 | a channel's message goes to the chat sender with the channel's id and a user's to the IM sender with the user's name, once, carrying the message, flags and current `thread_ts`; any other object produces none |
| SlackTs.ScanDecidesShape | slack-thread.c:52-72 | from any point whose three flags summarise the text read so far, the scan returns exactly whether the string has the timestamp shape |
| SlackTs.SummarisesStep | slack-thread.c:56-69 | one loop iteration keeps the flags an exact summary of the prefix read (loop invariant) |
| SlackTs.Scan | slack-thread.c:56-71 | the loop itself, digit by digit with the early return on a second dot; described by SummarisesStep and ScanDecidesShape |
| SlackTs.IsSlackTs | slack-thread.c:52-72 | true exactly when the string has one dot, a digit somewhere before it and a digit somewhere after it; other characters are ignored |
| SlackTs.AcceptsOneDot | slack-thread.c:52-72 | one dot with a digit on each side is accepted, whatever else the string holds |
| SlackTs.RejectsTwoDots | slack-thread.c:64-66 | any string with two dots is rejected |
| SlackTs.AcceptedHasOneDot | slack-thread.c:52-72 | every accepted string has a digit, then a dot, then a digit, and no second dot |
| ThreadArgs.SplitOnce | slack-cmd.c:131 | `g_strsplit` with limit 2: no pieces for "", the whole string when it has no space, else the text before the first space and the rest verbatim |
| ThreadArgs.ParseThreadArgument | slack-cmd.c:125-150 | the `cmd_thread` grammar: the latest thread exactly for an absent or empty argument; switch to channel only for `/`; post to channel only for `/ ` followed by the message; a timestamp (no space) alone, or a timestamp, one space and the message verbatim; see also ParseLatestExactly, ParseBadExactly, ParseThenArgument and ArgumentThenParse |
| ThreadArgs.ParseLatestExactly | slack-cmd.c:125-133 | the latest-thread outcome occurs exactly for an absent or empty argument |
| ThreadArgs.ParseBadExactly | slack-cmd.c:134-136 | the "first argument" notice occurs exactly when the argument starts with '/' followed by a character other than a space |
| ThreadArgs.ParseThenArgument | slack-cmd.c:130-150 | every argument that addresses the channel or a thread is reproduced by the canonical text of its parse; `rest` keeps its spaces |
| ThreadArgs.ArgumentThenParse | slack-cmd.c:130-150 | `/`, `/ msg`, `ts` and `ts msg` parse back to switch-to-channel, post-to-channel, switch-to-timestamp and post-to-timestamp |
| SlackThread.SendMessage | slack-thread.c:127-138 | status 1 exactly for a channel or user, with the message routed as `Delivery` states; otherwise `-ENOENT` and nothing sent |
| SlackThread.ThreadSwitch | slack-thread.c:140-160 | `thread_ts` becomes the given timestamp, nothing else in the object changes, and one system notice is written |
| SlackThread.ThreadPost | slack-thread.c:162-179 | nothing for a NULL message; otherwise one send seeing `thread_ts` equal to `ts`, with the object unchanged afterwards |
| SlackThread.SwitchToChannel | slack-thread.c:309-317 | without a thread nothing happens; otherwise `thread_ts` becomes NULL, nothing else changes, and the channel notice is written |
| SlackThread.PostToChannel | slack-thread.c:348-368 | one send seeing no `thread_ts`, object unchanged afterwards, plus a local echo with the SEND flag in an IM |
| SlackThread.SwitchToTimestamp | slack-thread.c:319-336 | no thread: nothing; a Slack timestamp: switch directly; otherwise resolve the clock time with op Switch |
| SlackThread.PostToTimestamp | slack-thread.c:370-387 | no thread: nothing; a Slack timestamp: post directly; otherwise resolve the clock time with op Post |
| SlackThread.ResolveTime | slack-thread.c:327-334 | a time that does not parse gives only the "Could not parse thread timestamp." notice; otherwise exactly one `conversations.history` query over the second the time parses to, answered by the thread handler with the pending op |
| SlackThread.HistoryWindow | slack-thread.c:296-303 | a `conversations.history` Get of the conversation with "oldest" `<n>.000000` and "latest" `<n>.999999`, answered by the thread handler |
| SlackThread.WindowCoversSecond | slack-thread.c:296-303 | both bounds split at their dot into second `n` as `%ld` writes it (reading back as `n`) and the first or last microsecond |
| SlackThread.GetReplies | slack-thread.c:389-402 | a Slack timestamp fetches its replies directly; otherwise resolve the clock time with op GetReplies |
| SlackThread.SwitchToLatest | slack-thread.c:338-346 | the object is unchanged; without a thread nothing happens, otherwise exactly one `conversations.history` query of the conversation, answered by the latest-thread handler |
| SlackThread.ListingExact | slack-thread.c:200-216 | every entry that carries a `ts` has its line in the ambiguity notice, and every line of it comes from such an entry |
| SlackThread.Listing | slack-thread.c:200-216 | the lines of the ambiguity notice, one per entry with a `ts`; described by ListingExact |
| SlackThread.ThreadReply | slack-thread.c:194-241 | zero messages: only the not-found notice; several: only the ambiguity notice, listing the entries; one message without a `ts`: nothing; one with a `ts`: the pending op (switch, post or fetch replies) carried out on that `ts` |
| SlackThread.WindowBoundsAreTimestamps | slack-thread.c:296-303 | both bounds of the one-second window, "oldest" and "latest", are themselves Slack timestamps for every second |
| SlackThread.WindowBoundIsTimestamp | slack-thread.c:298-300 | a number's digits followed by a dot and digits form a Slack timestamp |
| SlackThread.ResolvedMatchesDirect | slack-thread.c:229-241 | a reply holding the single message of thread `ts` leads to the same result as giving the timestamp `ts` directly, for all three ops |
| SlackThread.PostsRestoreThread | slack-thread.c:168-178 | after a post to a thread or to the channel `thread_ts` is what it was, while the send saw the override |
| SlackThread.ChannelSwitchSettles | slack-thread.c:309-317 | switching to the channel is idempotent on the object and undoes a switch to a thread |
| LatestThread.LatestThreadReply | slack-thread.c:285-288 | a selected thread is switched to; otherwise the conversation switches to the channel |
| LatestThread.LatestStep | slack-thread.c:264-282 | one iteration of the selection loop; described by StepExtends |
| LatestThread.LatestFold | slack-thread.c:261-283 | the selection loop over the reply; described by FoldExtends, SelectsFirstMaximum and SelectionComesFromReply |
| LatestThread.FoldExtends | slack-thread.c:263-283 | the loop's accumulator always holds the first maximum of the competitors seen so far (invariant of the fold) |
| LatestThread.StepExtends | slack-thread.c:264-282 | one iteration extends that invariant by the entry's competitor: only a strictly later value replaces the current one |
| LatestThread.SelectsFirstMaximum | slack-thread.c:261-283 | under a strict weak order the selection is the first maximal competitor, and is empty when there are no competitors |
| LatestThread.SelectionComesFromReply | slack-thread.c:261-283 | for any comparison the selection belongs to a competing entry of the reply; with no competitors the channel is selected |
| SlackCmd.SendCommand | slack-cmd.c:65-83 | a request exactly when account and conversation exist; it posts `chat.command` with the channel, "/" and the command name, and the argument or "" |
| SlackCmd.ForwardRoundTrip | slack-cmd.c:74-79 | the forwarded request gives back the command name and argument text it was made from |
| SlackCmd.EditCommand | slack-cmd.c:85-98 | a request exactly when account, conversation and last sent message all exist: one `chat.update` of that message; no account: failure without an error; no conversation or last message: "No last sent message" |
| SlackCmd.DeleteCommand | slack-cmd.c:100-113 | a request exactly when account, conversation and last sent message all exist: one `chat.delete` of that message; otherwise the same refusals as edit |
| SlackCmd.EditDeleteAgree | slack-cmd.c:85-113 | edit and delete refuse under the same conditions with the same error, and address the same message in the same channel |
| SlackCmd.CommandReply | slack-cmd.c:46-63 | an error gives one error-flagged write of it; otherwise a response gives one write of its rendering, starting from the system flag; otherwise nothing |
| SlackCmd.ErrorIgnoresResponse | slack-cmd.c:49-52 | with an error set the response is never read |
| SlackCmd.ThreadCommand | slack-cmd.c:115-156 | OK exactly when account and conversation exist; a failure does nothing; success changes at most the conversation's thread |
| SlackCmd.Execute | slack-cmd.c:132-150 | the call each parsed argument makes (switch to latest, notice, switch to channel, post to channel, switch to or post to a timestamp); described by ThreadCommandCases |
| SlackCmd.ThreadCommandCases | slack-cmd.c:125-155 | each of the six argument shapes gives OK with exactly the conversation and effects of its action; a long word starting with '/' only writes the notice |
| SlackCmd.GetThreadCommand | slack-cmd.c:158-171 | OK exactly when account and conversation exist; then it does what fetching the replies of the argument, or of "", does |
| SlackCmd.PostToThreadScenario | slack-cmd.c:144-149 | `/thread <ts> <message>` in a channel sends the message to thread `ts` only, leaving the channel's thread as it was |
| SlackCmd.EditScenario | slack-cmd.c:96 | `/edit` after sending a message issues the exact `chat.update` for that message |
| CmdTable.NameLength | slack-cmd.c:181-184 | the copy loop stops at a space, a colon, the end of the entry or 15 bytes, and copies no space or colon |
| CmdTable.CommandName | slack-cmd.c:181-184 | the derived name is a prefix of the entry, at most 15 bytes, and contains no space or colon, and cannot be extended |
| CmdTable.CommandNameUnique | slack-cmd.c:181-184 | that description fixes the name: an entry has only one command name |
| CmdTable.CatalogueSpecs | slack-cmd.c:179-190 | each catalogue entry registers its command name with one free-text argument, forwarded with the entry as help text |
| CmdTable.RegisterSpecs | slack-cmd.c:186-188 | registration appends one binding per command with fresh ids and prepends each handle, so the newest handle comes first |
| CmdTable.Register | slack-cmd.c:175-230 | `slack_cmd_register`: one handle per catalogue entry plus six, prepended to the list, the id counter advanced by as many, and the existing bindings kept; see also RegisterBindsEveryCommand and RegisterThenUnregister |
| CmdTable.Unregister | slack-cmd.c:232-237 | the handles are released in list order, each once, and the registry's id counter is untouched |
| CmdTable.UnregisterRemovesListed | slack-cmd.c:232-237 | unregistering removes from the registry exactly the bindings whose handles were listed |
| CmdTable.WithoutMembers | slack-cmd.c:234 | unregistering keeps exactly the bindings whose handle is not released |
| CmdTable.UnregisterUndoesRegister | slack-cmd.c:175-237 | unregistering the handles of any registration restores the registry it started from |
| CmdTable.RegisterThenUnregister | slack-cmd.c:175-237 | loading registers one handle per catalogue entry plus six, newest first; unloading then leaves the registry as it was before loading |
| CmdTable.RegisterBindsEveryCommand | slack-cmd.c:179-229 | every catalogue entry is bound to its command name and forwarded, followed by edit, delete, th, thread, getthread and gt with their handlers |

## Left out

- The time-string parser `slack_get_ts_from_time_str`, the `strftime`/`localtime` rendering in `slack_thread_switch`, `slack_get_thread_color`, `slack_ts_cmp` and `slack_message_to_html` are parameters. They depend on the locale, the clock or code outside these two files. The parser's result 0 means "cannot parse", as in the C.
- `slack_api_get`, `slack_api_post`, `purple_conversation_write`, `slack_write_message`, `slack_chat_send`, `slack_send_im` and `slack_get_thread_replies` are recorded as effects and not carried out. The `time(NULL)` stamp of a conversation write is not recorded.
- SlackCmd.CommandReply: `send_cmd_cb` returns FALSE on both of its paths; the model does not represent this constant return value, only the writes.
- The two thread reply handlers always return FALSE, and `slack_thread_cb` always frees its pending operation. This is constant or memory-management behaviour and is not represented. The NULL-`data` early return is not modelled either.
- Both thread reply handlers log an error when "messages" is missing or an error is set. With an error set and a list present they then handle the list normally, as the model does. When "messages" is missing they dereference the NULL list, which is undefined behaviour; the model takes the list as given. The debug log line is left out.
- Debug logging (`purple_debug_*`), including the log of a failed send in `slack_thread_post` and `slack_thread_post_to_channel`, is not recorded.
- `slack_thread_switch`, `slack_thread_post` (with a message) and `slack_thread_post_to_channel` dereference the conversation's thread without checking it. These members therefore require the object to have a thread, as does every caller that reaches them. `SlackCmd.ThreadCommand` and `LatestThread.LatestThreadReply` carry that requirement for the argument shapes that reach them.
- `SlackCmd.GetThreadCommand`: when `args` is non-NULL but `args[0]` is NULL, the C passes NULL to `slack_is_slack_ts`, which dereferences it. The model's `None` stands for `args == NULL` only, which gives "".
- `SlackThread.SwitchToLatest`: the `SLACK_HISTORY_LIMIT` page-size arguments of the history query are not part of the request modelled.
- The `purple_cmd_register` priority and flag values and the help texts of the local commands are static data and are not modelled. The catalogue entries themselves (`slack_cmds`) are a parameter.
- `CmdTable.RegisterSpecs`: libpurple's command ids are modelled as handed out sequentially from a counter. Their real allocation is outside these files; `CmdTable.RegisterThenUnregister` relies only on the ids being fresh.
- GObject boilerplate, reference counting and freeing (`thread_op_new_*`, `thread_op_free`, `g_free`) are memory management only.
- `LatestThread.SelectsFirstMaximum` assumes `slack_ts_cmp` is a strict weak order. `LatestThread.SelectionComesFromReply` holds for any comparison.

=== FILE: cmd_table.dfy ===
/** Registration of the plugin's commands with the client: the command name derived from
    each catalogue entry, and the list of handles recorded at load time and released at
    unload.  The client's command registry is modelled as a table of bindings with
    sequentially allocated ids. */
module CmdTable {

  /** `sizeof(cmdbuf) - 1`: the longest command name the 16-byte buffer holds. */
  const NAME_MAX: nat := 15

  /** The characters that end the command word of a catalogue entry. */
  predicate EndsName(c: char) {
    c == ' ' || c == ':'
  }

  /** The `for` loop copying a command word into `cmdbuf`, from index `i`: it stops at a
      space, a colon, the end of the entry, or once the buffer is full. */
  function NameLength(entry: string, i: nat): (n: nat)
    requires i <= |entry| && i <= NAME_MAX
    ensures i <= n <= |entry| && n <= NAME_MAX
    ensures forall k :: i <= k < n ==> !EndsName(entry[k])
    ensures n == |entry| || n == NAME_MAX || EndsName(entry[n])
    decreases NAME_MAX - i
  {
    if i < |entry| && !EndsName(entry[i]) && i < NAME_MAX then NameLength(entry, i + 1) else i
  }

  /** `name` is the command word of `entry`: the longest prefix with no space or colon
      that fits in the buffer. */
  predicate IsCommandName(entry: string, name: string) {
    && name <= entry
    && |name| <= NAME_MAX
    && (forall k :: 0 <= k < |name| ==> !EndsName(name[k]))
    && (|name| == |entry| || |name| == NAME_MAX || EndsName(entry[|name|]))
  }

  /** The name `slack_cmd_register` registers for a catalogue entry. */
  function CommandName(entry: string): (name: string)
    ensures IsCommandName(entry, name)
  {
    entry[..NameLength(entry, 0)]
  }

  /** An entry has only one command word. */
  lemma CommandNameUnique(entry: string, a: string, b: string)
    requires IsCommandName(entry, a) && IsCommandName(entry, b)
    ensures a == b
  {
  }

  /** The handler a command is bound to. */
  datatype Handler =
    | Forward(help: string)   // send_cmd, with the catalogue entry as its help text
    | EditHandler             // cmd_edit
    | DeleteHandler           // cmd_delete
    | ThreadHandler           // cmd_thread
    | GetThreadHandler        // cmd_getthread

  /** What one `purple_cmd_register` call asks for: a name, the argument shape ("s" for
      one free-text argument, "" for none) and a handler. */
  datatype Spec = Spec(name: string, args: string, handler: Handler)

  /** A registered command in the client's registry. */
  datatype Binding = Binding(id: nat, spec: Spec)

  /** The client's command registry: the next id it hands out and its bindings. */
  datatype Host = Host(next: nat, table: seq<Binding>)

  /** The registry and the handle list after registering. */
  datatype Registration = Registration(host: Host, commands: seq<nat>)

  /** The registry after unregistering, and the handles released, in release order. */
  datatype Release = Release(host: Host, released: seq<nat>)

  /** The six commands registered after the catalogue. */
  const LOCAL_COMMANDS: seq<Spec> := [
    Spec("edit", "s", EditHandler),
    Spec("delete", "", DeleteHandler),
    Spec("th", "s", ThreadHandler),
    Spec("thread", "s", ThreadHandler),
    Spec("getthread", "s", GetThreadHandler),
    Spec("gt", "s", GetThreadHandler)]

  /** The catalogue loop: each entry registers its command word, forwarded to the server. */
  function CatalogueSpecs(catalogue: seq<string>): (specs: seq<Spec>)
    ensures |specs| == |catalogue|
    ensures forall k :: 0 <= k < |catalogue| ==> specs[k] == Spec(CommandName(catalogue[k]), "s", Forward(catalogue[k]))
  {
    if catalogue == [] then []
    else [Spec(CommandName(catalogue[0]), "s", Forward(catalogue[0]))] + CatalogueSpecs(catalogue[1..])
  }

  /** Registers `specs` in order, prepending each new handle to `commands`
      (`g_slist_prepend`): the newest handle comes first. */
  function RegisterSpecs(h: Host, commands: seq<nat>, specs: seq<Spec>): (r: Registration)
    ensures r.host.next == h.next + |specs|
    ensures |r.host.table| == |h.table| + |specs| && r.host.table[..|h.table|] == h.table
    ensures forall k :: 0 <= k < |specs| ==> r.host.table[|h.table| + k] == Binding(h.next + k, specs[k])
    ensures |r.commands| == |specs| + |commands| && r.commands[|specs|..] == commands
    ensures forall k :: 0 <= k < |specs| ==> r.commands[k] == h.next + |specs| - 1 - k
    decreases |specs|
  {
    if specs == [] then Registration(h, commands)
    else
      var id := h.next;
      var h1 := Host(h.next + 1, h.table + [Binding(id, specs[0])]);
      var r := RegisterSpecs(h1, [id] + commands, specs[1..]);
      assert forall k :: 0 <= k < |specs[1..]| ==> r.host.table[|h1.table| + k] == Binding(h1.next + k, specs[1..][k]);
      assert r.host.table[..|h1.table|][..|h.table|] == r.host.table[..|h.table|];
      r
  }

  /** `slack_cmd_register`: every catalogue entry, then the six local commands. */
  function Register(h: Host, commands: seq<nat>, catalogue: seq<string>): (r: Registration)
    ensures r.host.next == h.next + |catalogue| + 6
    ensures |r.commands| == |commands| + |catalogue| + 6 && r.commands[|catalogue| + 6..] == commands
    ensures |r.host.table| == |h.table| + |catalogue| + 6 && r.host.table[..|h.table|] == h.table
  {
    RegisterSpecs(h, commands, CatalogueSpecs(catalogue) + LOCAL_COMMANDS)
  }

  /** The bindings of `table` whose id is not in `ids`. */
  function Without(table: seq<Binding>, ids: seq<nat>): seq<Binding> {
    if table == [] then []
    else (if table[0].id in ids then [] else [table[0]]) + Without(table[1..], ids)
  }

  /** `Without` keeps exactly the bindings whose handle is not listed. */
  lemma {:induction false} WithoutMembers(table: seq<Binding>, ids: seq<nat>)
    ensures forall b :: b in Without(table, ids) <==> b in table && b.id !in ids
  {
    if table != [] {
      WithoutMembers(table[1..], ids);
      assert table == [table[0]] + table[1..];
    }
  }

  /** `purple_cmd_unregister(id)`. */
  function HostUnregister(h: Host, id: nat): Host {
    h.(table := Without(h.table, [id]))
  }

  /** `slack_cmd_unregister`: releases the head of the list and drops it, until the list
      is empty. */
  function Unregister(h: Host, commands: seq<nat>): (r: Release)
    ensures r.released == commands
    ensures r.host.next == h.next
    decreases |commands|
  {
    if commands == [] then Release(h, [])
    else
      var r := Unregister(HostUnregister(h, commands[0]), commands[1..]);
      Release(r.host, [commands[0]] + r.released)
  }

  /** Unregistering removes from the registry exactly the bindings whose handles were
      listed, and nothing else. */
  lemma {:induction false} UnregisterRemovesListed(h: Host, commands: seq<nat>)
    ensures Unregister(h, commands).host.table == Without(h.table, commands)
    decreases |commands|
  {
    if commands == [] {
      WithoutNothing(h.table);
    } else {
      UnregisterRemovesListed(HostUnregister(h, commands[0]), commands[1..]);
      WithoutTwice(h.table, [commands[0]], commands[1..]);
      assert [commands[0]] + commands[1..] == commands;
    }
  }

  lemma {:induction false} WithoutNothing(table: seq<Binding>)
    ensures Without(table, []) == table
  {
    if table != [] {
      WithoutNothing(table[1..]);
    }
  }

  lemma {:induction false} WithoutTwice(table: seq<Binding>, a: seq<nat>, b: seq<nat>)
    ensures Without(Without(table, a), b) == Without(table, a + b)
  {
    if table != [] {
      WithoutTwice(table[1..], a, b);
      var first := if table[0].id in a then [] else [table[0]];
      WithoutAppend(first, Without(table[1..], a), b);
    }
  }

  lemma {:induction false} WithoutAppend(x: seq<Binding>, y: seq<Binding>, ids: seq<nat>)
    ensures Without(x + y, ids) == Without(x, ids) + Without(y, ids)
  {
    if x == [] {
      assert x + y == y;
    } else {
      var first := if x[0].id in ids then [] else [x[0]];
      assert (x + y)[0] == x[0];
      assert (x + y)[1..] == x[1..] + y;
      assert Without(x + y, ids) == first + Without(x[1..] + y, ids);
      WithoutAppend(x[1..], y, ids);
      assert first + (Without(x[1..], ids) + Without(y, ids)) == (first + Without(x[1..], ids)) + Without(y, ids);
    }
  }

  lemma {:induction false} WithoutKeeps(table: seq<Binding>, ids: seq<nat>)
    requires forall k :: 0 <= k < |table| ==> table[k].id !in ids
    ensures Without(table, ids) == table
  {
    if table != [] {
      WithoutKeeps(table[1..], ids);
    }
  }

  lemma {:induction false} WithoutDrops(table: seq<Binding>, ids: seq<nat>)
    requires forall k :: 0 <= k < |table| ==> table[k].id in ids
    ensures Without(table, ids) == []
  {
    if table != [] {
      WithoutDrops(table[1..], ids);
    }
  }

  /** The handles `RegisterSpecs` hands out are all fresh: none is below `h.next`. */
  lemma RegisteredAreFresh(h: Host, specs: seq<Spec>)
    ensures var r := RegisterSpecs(h, [], specs);
            forall j :: 0 <= j < |r.commands| ==> r.commands[j] >= h.next
  {
  }

  /** Every binding `RegisterSpecs` adds has its handle in the list it returns. */
  lemma AddedAreListed(h: Host, specs: seq<Spec>)
    ensures var r := RegisterSpecs(h, [], specs);
            var added := r.host.table[|h.table|..];
            r.host.table == h.table + added && forall k :: 0 <= k < |added| ==> added[k].id in r.commands
  {
    var r := RegisterSpecs(h, [], specs);
    var added := r.host.table[|h.table|..];
    assert r.host.table == r.host.table[..|h.table|] + added;
    forall k | 0 <= k < |added|
      ensures added[k].id in r.commands
    {
      assert added[k] == r.host.table[|h.table| + k] == Binding(h.next + k, specs[k]);
      assert r.commands[|specs| - 1 - k] == h.next + k;
      assert r.commands[|specs| - 1 - k] in r.commands;
    }
  }

  /** Unregistering the handles of any registration restores the registry it started from. */
  lemma UnregisterUndoesRegister(h: Host, specs: seq<Spec>)
    requires forall k :: 0 <= k < |h.table| ==> h.table[k].id < h.next
    ensures var r := RegisterSpecs(h, [], specs);
            Unregister(r.host, r.commands).host.table == h.table
  {
    var r := RegisterSpecs(h, [], specs);
    var ids := r.commands;
    var added := r.host.table[|h.table|..];
    AddedAreListed(h, specs);
    RegisteredAreFresh(h, specs);
    WithoutDrops(added, ids);
    WithoutKeeps(h.table, ids);
    WithoutAppend(h.table, added, ids);
    UnregisterRemovesListed(r.host, ids);
  }

  /** Loading then unloading the plugin: one handle per catalogue entry plus six, each
      released once, most recent first, and the client's registry is left exactly as
      it was before loading. */
  lemma RegisterThenUnregister(h: Host, catalogue: seq<string>)
    requires forall k :: 0 <= k < |h.table| ==> h.table[k].id < h.next
    ensures var r := Register(h, [], catalogue);
            |r.commands| == |catalogue| + 6
    ensures var r := Register(h, [], catalogue);
            forall k :: 0 <= k < |r.commands| ==> r.commands[k] == h.next + |r.commands| - 1 - k
    ensures var r := Register(h, [], catalogue);
            Unregister(r.host, r.commands).host.table == h.table
  {
    UnregisterUndoesRegister(h, CatalogueSpecs(catalogue) + LOCAL_COMMANDS);
  }

  /** Every catalogue entry is bound to its command word and forwarded; the six local
      commands follow it with their own handlers. */
  lemma RegisterBindsEveryCommand(h: Host, catalogue: seq<string>)
    ensures var t := Register(h, [], catalogue).host.table;
            forall k :: 0 <= k < |catalogue| ==>
              t[|h.table| + k].spec == Spec(CommandName(catalogue[k]), "s", Forward(catalogue[k]))
    ensures var t := Register(h, [], catalogue).host.table;
            forall k :: 0 <= k < 6 ==> t[|h.table| + |catalogue| + k].spec == LOCAL_COMMANDS[k]
  {
    var specs := CatalogueSpecs(catalogue) + LOCAL_COMMANDS;
    assert forall k :: 0 <= k < |catalogue| ==> specs[k] == CatalogueSpecs(catalogue)[k];
    assert forall k :: 0 <= k < 6 ==> specs[|catalogue| + k] == LOCAL_COMMANDS[k];
  }
}

=== FILE: latest_thread.dfy ===
/** `slack_latest_thread_cb`: a fold over a history reply that picks the most recent
    activity (a thread's latest reply, or an unthreaded message) and switches to its
    thread, or to the channel when the winner is unthreaded or there is none. */
module LatestThread {
  import opened Support
  import opened Objects
  import opened SlackThread

  /** The fold's accumulator: `latest_ts` and `latest_thread`. */
  datatype Latest = Latest(ts: Option<string>, thread: Option<string>)

  const NOTHING_YET := Latest(None, None)

  /** `slack_ts_cmp(a, b) > 0`; the comparison itself is a parameter. */
  predicate Later(cmp: (string, string) -> int, a: string, b: string) {
    cmp(a, b) > 0
  }

  /** One iteration of the loop: a threaded entry competes with its `latest_reply` and
      would select its thread, an unthreaded one competes with its `ts` and would select
      the channel; only a strictly later value replaces the current one. */
  function LatestStep(cmp: (string, string) -> int, acc: Latest, e: Entry): Latest {
    if e.threadTs.Some? then
      if e.latestReply.Some? && (acc.ts.None? || Later(cmp, e.latestReply.value, acc.ts.value))
      then Latest(e.latestReply, e.threadTs)
      else acc
    else
      if e.ts.Some? && (acc.ts.None? || Later(cmp, e.ts.value, acc.ts.value))
      then Latest(e.ts, None)
      else acc
  }

  /** The `for` loop over the reply's "messages". */
  function LatestFold(cmp: (string, string) -> int, acc: Latest, entries: seq<Entry>): Latest
    decreases |entries|
  {
    if entries == [] then acc else LatestFold(cmp, LatestStep(cmp, acc, entries[0]), entries[1..])
  }

  /** `slack_latest_thread_cb` given the reply's "messages" list. */
  function LatestThreadReply(env: Env, cmp: (string, string) -> int, obj: Obj, entries: seq<Entry>): (r: Step)
    requires LatestFold(cmp, NOTHING_YET, entries).thread.Some? ==> ThreadOf(obj).Some?
    ensures var sel := LatestFold(cmp, NOTHING_YET, entries);
            sel.thread.Some? ==> r == ThreadSwitch(env, obj, sel.thread.value)
    ensures var sel := LatestFold(cmp, NOTHING_YET, entries);
            sel.thread.None? ==> r == SwitchToChannel(obj)
  {
    var sel := LatestFold(cmp, NOTHING_YET, entries);
    if sel.thread.Some? then ThreadSwitch(env, obj, sel.thread.value) else SwitchToChannel(obj)
  }

  // ---- An independent description of the selection ----

  /** A competitor: the value it competes with and the thread it would select. */
  datatype Candidate = Candidate(key: string, thread: Option<string>)

  /** The competitor an entry contributes, if any: threaded entries without a
      `latest_reply`, and unthreaded entries without a `ts`, do not compete. */
  function CandidateOf(e: Entry): Option<Candidate> {
    if e.threadTs.Some? then
      (if e.latestReply.Some? then Some(Candidate(e.latestReply.value, e.threadTs)) else None)
    else if e.ts.Some? then Some(Candidate(e.ts.value, None))
    else None
  }

  function Candidates(entries: seq<Entry>): seq<Candidate> {
    if entries == [] then []
    else (if CandidateOf(entries[0]).Some? then [CandidateOf(entries[0]).value] else []) + Candidates(entries[1..])
  }

  /** `cs[j]` is the first maximum of `cs`: nothing is later than it, and it is later
      than everything before it (so an earlier equal value would have kept its place). */
  ghost predicate FirstMaximum(cmp: (string, string) -> int, cs: seq<Candidate>, j: int) {
    && 0 <= j < |cs|
    && (forall k :: 0 <= k < |cs| ==> !Later(cmp, cs[k].key, cs[j].key))
    && (forall i :: 0 <= i < j ==> Later(cmp, cs[j].key, cs[i].key))
  }

  /** `slack_ts_cmp` orders timestamps: "later" is irreflexive, transitive, and
      incomparability is transitive too (a strict weak order). */
  ghost predicate OrdersTimestamps(cmp: (string, string) -> int) {
    && (forall a :: !Later(cmp, a, a))
    && (forall a, b, c :: Later(cmp, a, b) && Later(cmp, b, c) ==> Later(cmp, a, c))
    && (forall a, b, c :: Later(cmp, a, b) ==> Later(cmp, a, c) || Later(cmp, c, b))
  }

  /** The accumulator describing the first maximum `j` of `cs`, or nothing when `cs` is empty. */
  ghost predicate Describes(cmp: (string, string) -> int, acc: Latest, cs: seq<Candidate>) {
    if cs == [] then acc == NOTHING_YET
    else exists j :: FirstMaximum(cmp, cs, j) && acc == Latest(Some(cs[j].key), cs[j].thread)
  }

  /** Folding more entries extends the description to the candidates they add. */
  lemma {:induction false} FoldExtends(cmp: (string, string) -> int, acc: Latest, seen: seq<Candidate>, entries: seq<Entry>)
    requires OrdersTimestamps(cmp)
    requires Describes(cmp, acc, seen)
    ensures Describes(cmp, LatestFold(cmp, acc, entries), seen + Candidates(entries))
    decreases |entries|
  {
    if entries == [] {
      assert seen + Candidates(entries) == seen;
    } else {
      var e := entries[0];
      var added := if CandidateOf(e).Some? then [CandidateOf(e).value] else [];
      assert Candidates(entries) == added + Candidates(entries[1..]);
      StepExtends(cmp, acc, seen, e);
      FoldExtends(cmp, LatestStep(cmp, acc, e), seen + added, entries[1..]);
      assert seen + added + Candidates(entries[1..]) == seen + Candidates(entries);
    }
  }

  /** One step extends the description by the entry's candidate. */
  lemma StepExtends(cmp: (string, string) -> int, acc: Latest, seen: seq<Candidate>, e: Entry)
    requires OrdersTimestamps(cmp)
    requires Describes(cmp, acc, seen)
    ensures Describes(cmp, LatestStep(cmp, acc, e), seen + if CandidateOf(e).Some? then [CandidateOf(e).value] else [])
  {
    if CandidateOf(e).Some? {
      var c := CandidateOf(e).value;
      var cs := seen + [c];
      var m := |seen|;
      assert cs[m] == c;
      if seen == [] {
        assert FirstMaximum(cmp, cs, 0);
      } else {
        var j :| FirstMaximum(cmp, seen, j) && acc == Latest(Some(seen[j].key), seen[j].thread);
        if Later(cmp, c.key, seen[j].key) {
          forall k | 0 <= k < |cs|
            ensures !Later(cmp, cs[k].key, c.key)
          {
            if k < m {
              assert cs[k] == seen[k];
              assert !Later(cmp, seen[k].key, seen[j].key);
            }
          }
          forall i | 0 <= i < m
            ensures Later(cmp, c.key, cs[i].key)
          {
            assert cs[i] == seen[i];
            assert !Later(cmp, seen[i].key, seen[j].key);
          }
          assert FirstMaximum(cmp, cs, m);
        } else {
          forall k | 0 <= k < |cs|
            ensures !Later(cmp, cs[k].key, cs[j].key)
          {
            if k < m {
              assert cs[k] == seen[k];
            }
          }
          forall i | 0 <= i < j
            ensures Later(cmp, cs[j].key, cs[i].key)
          {
            assert cs[i] == seen[i];
          }
          assert FirstMaximum(cmp, cs, j);
        }
      }
    } else {
      assert seen + [] == seen;
    }
  }

  /** The loop selects the first maximal competitor: no competitor is later than the
      selected one, every earlier competitor is strictly earlier, and the selected
      thread is the competitor's; with no competitor at all, nothing is selected. */
  lemma SelectsFirstMaximum(cmp: (string, string) -> int, entries: seq<Entry>)
    requires OrdersTimestamps(cmp)
    ensures Candidates(entries) == [] ==> LatestFold(cmp, NOTHING_YET, entries) == NOTHING_YET
    ensures Candidates(entries) != [] ==>
              exists j :: FirstMaximum(cmp, Candidates(entries), j) &&
                          LatestFold(cmp, NOTHING_YET, entries) == Latest(Some(Candidates(entries)[j].key), Candidates(entries)[j].thread)
  {
    FoldExtends(cmp, NOTHING_YET, [], entries);
    assert [] + Candidates(entries) == Candidates(entries);
  }

  /** Whatever `slack_ts_cmp` does, the selected thread belongs to a threaded entry of the
      reply, and a reply without competitors (an empty one included) switches to the channel. */
  lemma {:induction false} SelectionComesFromReply(cmp: (string, string) -> int, acc: Latest, entries: seq<Entry>)
    ensures var r := LatestFold(cmp, acc, entries);
            r == acc || exists i :: 0 <= i < |entries| && CandidateOf(entries[i]).Some? &&
                                   r == Latest(Some(CandidateOf(entries[i]).value.key), CandidateOf(entries[i]).value.thread)
    ensures Candidates(entries) == [] ==> LatestFold(cmp, acc, entries) == acc
    decreases |entries|
  {
    if entries != [] {
      var next := LatestStep(cmp, acc, entries[0]);
      SelectionComesFromReply(cmp, next, entries[1..]);
      var r := LatestFold(cmp, acc, entries);
      if r != next {
        var i :| 0 <= i < |entries[1..]| && CandidateOf(entries[1..][i]).Some? &&
                 r == Latest(Some(CandidateOf(entries[1..][i]).value.key), CandidateOf(entries[1..][i]).value.thread);
        assert entries[1..][i] == entries[i + 1];
      }
      if Candidates(entries) == [] {
        assert CandidateOf(entries[0]).None?;
        assert Candidates(entries[1..]) == [];
      }
    }
  }
}

=== FILE: objects.dfy ===
/** The plugin's view of a conversation object (a channel, an IM partner or anything
    else), its per-conversation thread state, the outbound requests and the effects
    the command and thread code produce.  Network calls and UI writes are not
    performed: each becomes an `Effect` appended to a log. */
module Objects {
  import opened Support

  /** `PurpleMessageFlags`, as libpurple numbers them. */
  type Flags = nat

  const NO_FLAGS: Flags := 0
  const MESSAGE_SEND: Flags := 0x0001
  const MESSAGE_SYSTEM: Flags := 0x0004
  const MESSAGE_ERROR: Flags := 0x0200

  /** `ENOENT` on Linux; `slack_thread_send_message` returns its negation. */
  const ENOENT: int := 2

  /** The dynamic type of a `SlackObject`. */
  datatype Kind =
    | Channel(cid: string)   // SlackChannel, addressed by its channel id
    | User(name: string)     // SlackUser, addressed by its user name for IMs
    | OtherKind              // any other SlackObject

  /** A `SlackThread`: `ts` is its `thread_ts`, NULL while posting to the main channel. */
  datatype Thread = Thread(ts: Option<string>)

  /** A conversation object: `id` is `slack_conversation_id(obj)`, `lastSent` is
      `obj->last_sent`, `thread` is the thread pointer a channel or user carries. */
  datatype Obj = Obj(kind: Kind, id: string, lastSent: Option<string>, thread: Option<Thread>)

  /** Where `slack_chat_send` or `slack_send_im` deliver a message. */
  datatype Route = ToChannel(cid: string) | ToIm(name: string)

  /** What a history query's reply is used for (`enum ThreadOp` with its message). */
  datatype ThreadOp = OpSwitch | OpPost(msg: string) | OpGetReplies

  /** The reply handler registered with an API request. */
  datatype Callback =
    | NoCallback
    | SendCmdCallback                  // send_cmd_cb
    | ThreadCallback(op: ThreadOp)     // slack_thread_cb
    | LatestThreadCallback             // slack_latest_thread_cb

  datatype Verb = Get | Post

  /** A `slack_api_get` / `slack_api_post` call: method name, argument pairs in order, callback. */
  datatype Request = Request(verb: Verb, endpoint: string, fields: seq<(string, string)>, callback: Callback)

  /** One observable effect of the core. */
  datatype Effect =
    | Api(req: Request)                                   // slack_api_get / slack_api_post
    | ConvWrite(text: string, flags: Flags)               // purple_conversation_write
    | Write(text: string, flags: Flags)                   // slack_write_message
    | Send(route: Route, msg: string, flags: Flags, threadTs: Option<string>)
                                                          // slack_chat_send / slack_send_im, with
                                                          // the thread_ts in force while sending
    | FetchReplies(ts: string)                            // slack_get_thread_replies

  /** The conversation object after an operation, and what the operation did. */
  datatype Step = Step(obj: Obj, log: seq<Effect>)

  /** `slack_get_thread_from_obj`: the thread of a channel or a user, NULL for any other object. */
  function ThreadOf(obj: Obj): (t: Option<Thread>)
    ensures obj.kind.OtherKind? ==> t == None
    ensures !obj.kind.OtherKind? ==> t == obj.thread
  {
    match obj.kind
    case Channel(_) => obj.thread
    case User(_) => obj.thread
    case OtherKind => None
  }

  /** The `thread_ts` currently in force for `obj`; NULL when it has no thread. */
  function ThreadTs(obj: Obj): Option<string> {
    match ThreadOf(obj)
    case Some(t) => t.ts
    case None => None
  }

  /** Assigning `th->thread_ts`: only the thread's timestamp changes. */
  function WithThreadTs(obj: Obj, ts: Option<string>): (r: Obj)
    requires ThreadOf(obj).Some?
    ensures ThreadOf(r) == Some(Thread(ts)) && ThreadTs(r) == ts
    ensures r.(thread := obj.thread) == obj
    ensures ThreadTs(obj) == ts ==> r == obj
  {
    obj.(thread := Some(Thread(ts)))
  }

  /** What `slack_thread_send_message` hands to the transport for a message on `kind`
      while the conversation's `thread_ts` is `threadTs`. */
  function Delivery(kind: Kind, msg: string, flags: Flags, threadTs: Option<string>): (log: seq<Effect>)
    ensures kind.OtherKind? <==> log == []
    ensures |log| <= 1
    ensures forall e :: e in log ==> e.Send? && e.msg == msg && e.flags == flags && e.threadTs == threadTs
    ensures kind.Channel? ==> log == [Send(ToChannel(kind.cid), msg, flags, threadTs)]
    ensures kind.User? ==> log == [Send(ToIm(kind.name), msg, flags, threadTs)]
  {
    match kind
    case Channel(cid) => [Send(ToChannel(cid), msg, flags, threadTs)]
    case User(name) => [Send(ToIm(name), msg, flags, threadTs)]
    case OtherKind => []
  }

  /** The names of the argument pairs, in order. */
  function Keys(fields: seq<(string, string)>): (ks: seq<string>)
    ensures |ks| == |fields| && forall k :: 0 <= k < |fields| ==> ks[k] == fields[k].0
  {
    seq(|fields|, k requires 0 <= k < |fields| => fields[k].0)
  }

  /** The value of the first argument pair named `key`. */
  function Lookup(fields: seq<(string, string)>, key: string): (v: Option<string>)
    ensures v.None? <==> forall k :: 0 <= k < |fields| ==> fields[k].0 != key
    ensures v.Some? ==> (key, v.value) in fields
  {
    var i := IndexOf(Keys(fields), key);
    if i < |fields| then Some(fields[i].1) else None
  }

  /** The first pair named `key` gives the value. */
  lemma LookupAt(fields: seq<(string, string)>, key: string, k: nat)
    requires k < |fields| && fields[k].0 == key
    requires forall j :: 0 <= j < k ==> fields[j].0 != key
    ensures Lookup(fields, key) == Some(fields[k].1)
  {
    IndexOfIs(Keys(fields), key, k);
  }
}

=== FILE: slack_cmd.dfy ===
/** The command handlers of the plugin: commands forwarded to the server (`chat.command`,
    `edit`, `delete`), the rendering of the server's reply, and the local `thread` /
    `getthread` commands built on the thread navigation. */
module SlackCmd {
  import opened Support
  import opened Objects
  import opened ThreadArgs
  import opened SlackThread
  import SlackTs

  /** `PurpleCmdRet`. */
  datatype CmdRet = Ok | Failed

  /** A forwarded command: rejected locally (with the error text, when one is set) or
      turned into exactly one API request. */
  datatype Forwarded = Rejected(error: Option<string>) | Issued(req: Request)

  const NO_LAST_SENT := "No last sent message"
  const BAD_FIRST_ARGUMENT := "thread: First argument must be '/' or a valid timestamp"

  /** The return value a forwarded command gives the client. */
  function Ret(f: Forwarded): CmdRet {
    if f.Issued? then Ok else Failed
  }

  /** `send_cmd`: with an account and a conversation, posts `chat.command` carrying the
      channel, "/" followed by the command name, and the argument text ("" when absent). */
  function SendCommand(hasAccount: bool, conv: Option<Obj>, cmd: string, arg: Option<string>): (r: Forwarded)
    ensures r.Issued? <==> hasAccount && conv.Some?
    ensures r.Rejected? ==> r.error == None
    ensures r.Issued? ==> r.req.verb == Post && r.req.endpoint == "chat.command" && r.req.callback == SendCmdCallback
    ensures r.Issued? ==> r.req.fields == [("channel", conv.value.id), ("command", "/" + cmd), ("text", arg.GetOr(""))]
  {
    if !hasAccount || conv.None? then Rejected(None)
    else Issued(Request(Post, "chat.command",
                        [("channel", conv.value.id), ("command", "/" + cmd), ("text", arg.GetOr(""))],
                        SendCmdCallback))
  }

  /** `cmd_edit`: replaces the last sent message's text through `chat.update`. */
  function EditCommand(hasAccount: bool, conv: Option<Obj>, arg: Option<string>): (r: Forwarded)
    ensures r.Issued? <==> hasAccount && conv.Some? && conv.value.lastSent.Some?
    ensures !hasAccount ==> r == Rejected(None)
    ensures hasAccount && (conv.None? || conv.value.lastSent.None?) ==> r == Rejected(Some(NO_LAST_SENT))
    ensures r.Issued? ==> r.req.verb == Post && r.req.endpoint == "chat.update" && r.req.callback == NoCallback
    ensures r.Issued? ==> r.req.fields == [("channel", conv.value.id), ("ts", conv.value.lastSent.value),
                                            ("as_user", "true"), ("text", arg.GetOr(""))]
  {
    if !hasAccount then Rejected(None)
    else if conv.None? || conv.value.lastSent.None? then Rejected(Some(NO_LAST_SENT))
    else Issued(Request(Post, "chat.update",
                        [("channel", conv.value.id), ("ts", conv.value.lastSent.value),
                         ("as_user", "true"), ("text", arg.GetOr(""))],
                        NoCallback))
  }

  /** `cmd_delete`: removes the last sent message through `chat.delete`. */
  function DeleteCommand(hasAccount: bool, conv: Option<Obj>): (r: Forwarded)
    ensures r.Issued? <==> hasAccount && conv.Some? && conv.value.lastSent.Some?
    ensures !hasAccount ==> r == Rejected(None)
    ensures hasAccount && (conv.None? || conv.value.lastSent.None?) ==> r == Rejected(Some(NO_LAST_SENT))
    ensures r.Issued? ==> r.req.verb == Post && r.req.endpoint == "chat.delete" && r.req.callback == NoCallback
    ensures r.Issued? ==> r.req.fields == [("channel", conv.value.id), ("ts", conv.value.lastSent.value),
                                            ("as_user", "true")]
  {
    if !hasAccount then Rejected(None)
    else if conv.None? || conv.value.lastSent.None? then Rejected(Some(NO_LAST_SENT))
    else Issued(Request(Post, "chat.delete",
                        [("channel", conv.value.id), ("ts", conv.value.lastSent.value), ("as_user", "true")],
                        NoCallback))
  }

  /** Recovers the command name and text a `chat.command` request carries. */
  function ForwardedCommand(req: Request): Option<(string, string)> {
    var command := Lookup(req.fields, "command");
    var text := Lookup(req.fields, "text");
    if req.endpoint == "chat.command" && command.Some? && |command.value| >= 1 && command.value[0] == '/' && text.Some?
    then Some((command.value[1..], text.value))
    else None
  }

  /** The request `send_cmd` issues gives back the command name and argument it was made from. */
  lemma ForwardRoundTrip(conv: Obj, cmd: string, arg: Option<string>)
    ensures SendCommand(true, Some(conv), cmd, arg).Issued?
    ensures ForwardedCommand(SendCommand(true, Some(conv), cmd, arg).req) == Some((cmd, arg.GetOr("")))
  {
    var req := SendCommand(true, Some(conv), cmd, arg).req;
    LookupAt(req.fields, "command", 1);
    LookupAt(req.fields, "text", 2);
    assert ("/" + cmd)[1..] == cmd;
  }

  /** `edit` and `delete` refuse under the same conditions with the same error, and when
      they act they address the same message: the last sent one, in the same channel. */
  lemma EditDeleteAgree(hasAccount: bool, conv: Option<Obj>, arg: Option<string>)
    ensures EditCommand(hasAccount, conv, arg).Rejected? <==> DeleteCommand(hasAccount, conv).Rejected?
    ensures EditCommand(hasAccount, conv, arg).Rejected? ==> EditCommand(hasAccount, conv, arg) == DeleteCommand(hasAccount, conv)
    ensures EditCommand(hasAccount, conv, arg).Issued? ==>
              EditCommand(hasAccount, conv, arg).req.fields[..3] == DeleteCommand(hasAccount, conv).req.fields
    ensures Ret(EditCommand(hasAccount, conv, arg)) == Ok <==> hasAccount && conv.Some? && conv.value.lastSent.Some?
  {
  }

  /** `send_cmd_cb`: an error is written as one error-flagged message; otherwise a
      "response" is converted by `render` (from the service's markup, starting from the
      system flag, which the conversion may change) and written; otherwise nothing. */
  function CommandReply(error: Option<string>, response: Option<string>,
                        render: (string, Flags) -> (string, Flags)): (log: seq<Effect>)
    ensures |log| <= 1
    ensures error.Some? ==> log == [ConvWrite(error.value, MESSAGE_ERROR)]
    ensures error.None? && response.None? ==> log == []
    ensures error.None? && response.Some? ==>
              log == [ConvWrite(render(response.value, MESSAGE_SYSTEM).0, render(response.value, MESSAGE_SYSTEM).1)]
  {
    if error.Some? then [ConvWrite(error.value, MESSAGE_ERROR)]
    else if response.Some? then
      var (html, flags) := render(response.value, MESSAGE_SYSTEM);
      [ConvWrite(html, flags)]
    else []
  }

  /** An error reply does not look at the response at all. */
  lemma ErrorIgnoresResponse(error: string, r1: Option<string>, r2: Option<string>,
                             render: (string, Flags) -> (string, Flags))
    ensures CommandReply(Some(error), r1, render) == CommandReply(Some(error), r2, render)
    ensures CommandReply(Some(error), r1, render)[0].flags == MESSAGE_ERROR
  {
  }

  /** The result of a local command: its return value, the conversation afterwards, and
      what it did. */
  datatype Outcome = Outcome(ret: CmdRet, conv: Option<Obj>, log: seq<Effect>)

  /** A local command that succeeded after carrying out `step`. */
  function Completed(step: Step): Outcome {
    Outcome(Ok, Some(step.obj), step.log)
  }

  /** Carries out a parsed thread action on the conversation. */
  function Execute(env: Env, obj: Obj, action: ThreadAction): Step
    requires action.ActPostChannel? ==> ThreadOf(obj).Some?
  {
    match action
    case ActLatest => SwitchToLatest(obj)
    case ActBadArgument => Step(obj, [Write(BAD_FIRST_ARGUMENT, MESSAGE_SYSTEM)])
    case ActChannel => SwitchToChannel(obj)
    case ActPostChannel(msg) => PostToChannel(obj, msg)
    case ActTimestamp(ts) => SwitchToTimestamp(env, obj, ts)
    case ActPostTimestamp(ts, msg) => PostToTimestamp(env, obj, ts, msg)
  }

  /** `cmd_thread`: needs an account and a conversation; then parses the argument,
      carries out the action and reports success whatever the action was. */
  function ThreadCommand(env: Env, hasAccount: bool, conv: Option<Obj>, arg: Option<string>): (r: Outcome)
    requires hasAccount && conv.Some? && ParseThreadArgument(arg).ActPostChannel? ==> ThreadOf(conv.value).Some?
    ensures r.ret == Ok <==> hasAccount && conv.Some?
    ensures r.ret == Failed ==> r.conv == conv && r.log == []
    ensures r.ret == Ok ==> r.conv.Some? && r.conv.value.(thread := conv.value.thread) == conv.value
  {
    if !hasAccount || conv.None? then Outcome(Failed, conv, [])
    else
      Completed(Execute(env, conv.value, ParseThreadArgument(arg)))
  }

  /** `cmd_getthread`: fetches the replies of the thread named by the argument ("" when
      there is none). */
  function GetThreadCommand(env: Env, hasAccount: bool, conv: Option<Obj>, arg: Option<string>): (r: Outcome)
    ensures r.ret == Ok <==> hasAccount && conv.Some?
    ensures r.conv == conv
    ensures r.ret == Ok ==> r.log == GetReplies(env, conv.value, arg.GetOr("")).log
    ensures r.ret == Failed ==> r.log == []
  {
    if !hasAccount || conv.None? then Outcome(Failed, conv, [])
    else Outcome(Ok, conv, GetReplies(env, conv.value, arg.GetOr("")).log)
  }

  /** The six outcomes of `thread`, as the argument determines them: an absent or empty
      argument asks for the latest thread; '/' alone, '/' and a message, a longer word
      starting with '/' (one notice, no thread action), a timestamp alone, a timestamp and a
      message.  The message is everything after the first space. */
  lemma {:induction false} ThreadCommandCases(env: Env, obj: Obj, arg: Option<string>)
    requires ParseThreadArgument(arg).ActPostChannel? ==> ThreadOf(obj).Some?
    ensures arg.None? || arg == Some("") ==> ThreadCommand(env, true, Some(obj), arg) == Completed(SwitchToLatest(obj))
    ensures arg == Some("/") ==> ThreadCommand(env, true, Some(obj), arg) == Completed(SwitchToChannel(obj))
    ensures arg.Some? && |arg.value| >= 2 && arg.value[..2] == "/ " && ThreadOf(obj).Some? ==>
              ThreadCommand(env, true, Some(obj), arg) == Completed(PostToChannel(obj, arg.value[2..]))
    ensures arg.Some? && |arg.value| >= 2 && arg.value[0] == '/' && arg.value[1] != ' ' ==>
              ThreadCommand(env, true, Some(obj), arg) == Completed(Step(obj, [Write(BAD_FIRST_ARGUMENT, MESSAGE_SYSTEM)]))
    ensures forall ts :: arg == Some(ts) && ts != "" && TsToken(ts) ==>
              ThreadCommand(env, true, Some(obj), arg) == Completed(SwitchToTimestamp(env, obj, ts))
    ensures forall ts, msg :: arg == Some(ts + " " + msg) && TsToken(ts) ==>
              ThreadCommand(env, true, Some(obj), arg) == Completed(PostToTimestamp(env, obj, ts, msg))
  {
    ParseLatestExactly(arg);
    if arg.Some? {
      var s := arg.value;
      ParseBadExactly(s);
      if s == "/" {
        ArgumentThenParse(ActChannel);
      }
      if |s| >= 2 && s[..2] == "/ " {
        assert s == "/ " + s[2..];
        ArgumentThenParse(ActPostChannel(s[2..]));
      }
      forall ts | s == ts && ts != "" && TsToken(ts)
        ensures ParseThreadArgument(arg) == ActTimestamp(ts)
      {
        ArgumentThenParse(ActTimestamp(ts));
      }
      forall ts, msg | s == ts + " " + msg && TsToken(ts)
        ensures ParseThreadArgument(arg) == ActPostTimestamp(ts, msg)
      {
        ArgumentThenParse(ActPostTimestamp(ts, msg));
      }
    }
  }

  /** `/thread <ts> <message>` in a channel, with `ts` a Slack timestamp (say
      `/thread 111.222 ship it`), sends the message to that thread and writes nothing
      locally; the channel's own thread setting is untouched. */
  lemma PostToThreadScenario(env: Env, cid: string, id: string, current: Option<string>, ts: string, msg: string)
    requires TsToken(ts) && SlackTs.IsSlackTs(ts)
    ensures var obj := Obj(Channel(cid), id, None, Some(Thread(current)));
            ThreadCommand(env, true, Some(obj), Some(ts + " " + msg))
              == Outcome(Ok, Some(obj), [Send(ToChannel(cid), msg, NO_FLAGS, Some(ts))])
  {
    ArgumentThenParse(ActPostTimestamp(ts, msg));
  }

  /** `/edit new text` after sending 111.222 issues one `chat.update` for that message. */
  lemma EditScenario(obj: Obj)
    requires obj.lastSent == Some("111.222")
    ensures EditCommand(true, Some(obj), Some("new text"))
              == Issued(Request(Post, "chat.update",
                                [("channel", obj.id), ("ts", "111.222"), ("as_user", "true"), ("text", "new text")],
                                NoCallback))
  {
  }
}

=== FILE: slack_thread.dfy ===
/** Thread navigation for one conversation object: the `thread_ts` transitions, the
    temporary override used to post a single message elsewhere, the dispatch between a
    literal Slack timestamp and a clock time, and the reply handler of the history query
    that resolves a clock time to a thread. */
module SlackThread {
  import opened Support
  import opened Objects
  import opened SlackTs

  /** The collaborators that depend on locale and clock, as uninterpreted functions. */
  datatype Env = Env(
    color: string -> string,     // slack_get_thread_color(ts)
    timeText: string -> string,  // strftime("%x-%X", localtime(slack_parse_time_str(ts)))
    timeOf: string -> int)       // slack_get_ts_from_time_str(str); 0 when it cannot parse

  /** A message of a `conversations.history` reply, with the string fields the plugin reads. */
  datatype Entry = Entry(ts: Option<string>, text: Option<string>, threadTs: Option<string>, latestReply: Option<string>)

  const SWITCHED_TO_CHANNEL := "Switched conversation thread to channel."
  const CANNOT_PARSE := "Could not parse thread timestamp."
  const THREAD_NOT_FOUND := "Thread not found. If the thread start date is not today, make sure you specify the date in the thread timestamp."
  const AMBIGUOUS := "Thread timestamp is ambiguous. Please use one of the following unambiguous thread IDs:\n"

  /** The notice written when the conversation switches to thread `ts`. */
  function SwitchedMessage(env: Env, ts: string): string {
    "Switched conversation thread to <font color=\"#" + env.color(ts) + "\">" + env.timeText(ts) + "</font> (" + ts + ")."
  }

  /** The result of `slack_thread_send_message`: its status and what it sent. */
  datatype Sent = Sent(status: int, log: seq<Effect>)

  /** `slack_thread_send_message`: a channel goes to the chat sender, a user to the IM
      sender, both returning 1; any other object returns -ENOENT and sends nothing. */
  function SendMessage(obj: Obj, msg: string, flags: Flags): (r: Sent)
    ensures r.status == 1 <==> !obj.kind.OtherKind?
    ensures r.status != 1 ==> r.status == -ENOENT && r.log == []
    ensures r.log == Delivery(obj.kind, msg, flags, ThreadTs(obj))
  {
    var log := Delivery(obj.kind, msg, flags, ThreadTs(obj));
    if obj.kind.OtherKind? then Sent(-ENOENT, log) else Sent(1, log)
  }

  /** `slack_thread_switch`: the conversation's `thread_ts` becomes `ts` and a notice is
      written.  The C dereferences the thread without a check, hence the precondition. */
  function ThreadSwitch(env: Env, obj: Obj, ts: string): (r: Step)
    requires ThreadOf(obj).Some?
    ensures ThreadTs(r.obj) == Some(ts)
    ensures r.obj.(thread := obj.thread) == obj
    ensures r.log == [Write(SwitchedMessage(env, ts), MESSAGE_SYSTEM)]
  {
    Step(WithThreadTs(obj, Some(ts)), [Write(SwitchedMessage(env, ts), MESSAGE_SYSTEM)])
  }

  /** `slack_thread_post`: nothing for a NULL message; otherwise the message is sent while
      `thread_ts` is temporarily `ts`, and the previous `thread_ts` is put back. */
  function ThreadPost(obj: Obj, ts: string, msg: Option<string>): (r: Step)
    requires msg.Some? ==> ThreadOf(obj).Some?
    ensures r.obj == obj
    ensures msg.None? ==> r.log == []
    ensures msg.Some? ==> r.log == Delivery(obj.kind, msg.value, NO_FLAGS, Some(ts))
  {
    if msg.None? then Step(obj, [])
    else
      var previous := ThreadTs(obj);
      var during := WithThreadTs(obj, Some(ts));
      var sent := SendMessage(during, msg.value, NO_FLAGS);
      Step(WithThreadTs(during, previous), sent.log)
  }

  /** `slack_thread_switch_to_channel`: clears `thread_ts` and says so; nothing happens
      when the object has no thread. */
  function SwitchToChannel(obj: Obj): (r: Step)
    ensures ThreadOf(obj).None? ==> r == Step(obj, [])
    ensures ThreadOf(obj).Some? ==> ThreadTs(r.obj) == None && r.obj.(thread := obj.thread) == obj
    ensures ThreadOf(obj).Some? ==> r.log == [Write(SWITCHED_TO_CHANNEL, MESSAGE_SYSTEM)]
  {
    if ThreadOf(obj).None? then Step(obj, [])
    else Step(WithThreadTs(obj, None), [Write(SWITCHED_TO_CHANNEL, MESSAGE_SYSTEM)])
  }

  /** `slack_thread_post_to_channel`: the message is sent with `thread_ts` cleared, the
      previous `thread_ts` is put back, and in an IM the message is echoed locally because
      the client does not show messages sent through a command.  The thread is
      dereferenced unconditionally. */
  function PostToChannel(obj: Obj, msg: string): (r: Step)
    requires ThreadOf(obj).Some?
    ensures r.obj == obj
    ensures r.log == Delivery(obj.kind, msg, NO_FLAGS, None)
                     + (if obj.kind.User? then [Write(msg, MESSAGE_SEND)] else [])
  {
    var previous := ThreadTs(obj);
    var during := WithThreadTs(obj, None);
    var sent := SendMessage(during, msg, NO_FLAGS);
    var restored := WithThreadTs(during, previous);
    Step(restored, sent.log + if obj.kind.User? then [Write(msg, MESSAGE_SEND)] else [])
  }

  /** The `conversations.history` query `slack_thread_call_operation` issues for second `n`:
      every message of that second, from "<n>.000000" to "<n>.999999". */
  function HistoryWindow(obj: Obj, op: ThreadOp, n: int): (r: Request)
    ensures r.verb == Get && r.endpoint == "conversations.history" && r.callback == ThreadCallback(op)
    ensures r.fields == [("channel", obj.id), ("oldest", Decimal(n) + ".000000"), ("latest", Decimal(n) + ".999999")]
  {
    Request(Get, "conversations.history",
            [("channel", obj.id), ("oldest", Decimal(n) + ".000000"), ("latest", Decimal(n) + ".999999")],
            ThreadCallback(op))
  }

  /** What to do with a timestamp argument that is not a literal Slack timestamp: either
      the "cannot parse" notice, or one history query resolving the clock time. */
  function ResolveTime(env: Env, obj: Obj, timestr: string, op: ThreadOp): (r: Step)
    ensures r.obj == obj && |r.log| == 1
    ensures env.timeOf(timestr) == 0 <==> r.log[0] == Write(CANNOT_PARSE, MESSAGE_SYSTEM)
    ensures env.timeOf(timestr) != 0 ==> r.log == [Api(HistoryWindow(obj, op, env.timeOf(timestr)))]
  {
    var n := env.timeOf(timestr);
    if n == 0 then Step(obj, [Write(CANNOT_PARSE, MESSAGE_SYSTEM)])
    else Step(obj, [Api(HistoryWindow(obj, op, n))])
  }

  /** `slack_thread_switch_to_timestamp`. */
  function SwitchToTimestamp(env: Env, obj: Obj, timestr: string): (r: Step)
    ensures ThreadOf(obj).None? ==> r == Step(obj, [])
    ensures ThreadOf(obj).Some? && IsSlackTs(timestr) ==> r == ThreadSwitch(env, obj, timestr)
    ensures ThreadOf(obj).Some? && !IsSlackTs(timestr) ==> r == ResolveTime(env, obj, timestr, OpSwitch)
  {
    if ThreadOf(obj).None? then Step(obj, [])
    else if IsSlackTs(timestr) then ThreadSwitch(env, obj, timestr)
    else ResolveTime(env, obj, timestr, OpSwitch)
  }

  /** `slack_thread_post_to_timestamp`. */
  function PostToTimestamp(env: Env, obj: Obj, timestr: string, msg: string): (r: Step)
    ensures ThreadOf(obj).None? ==> r == Step(obj, [])
    ensures ThreadOf(obj).Some? && IsSlackTs(timestr) ==> r == ThreadPost(obj, timestr, Some(msg))
    ensures ThreadOf(obj).Some? && !IsSlackTs(timestr) ==> r == ResolveTime(env, obj, timestr, OpPost(msg))
  {
    if ThreadOf(obj).None? then Step(obj, [])
    else if IsSlackTs(timestr) then ThreadPost(obj, timestr, Some(msg))
    else ResolveTime(env, obj, timestr, OpPost(msg))
  }

  /** `slack_thread_get_replies`; unlike the two above it does not look for a thread. */
  function GetReplies(env: Env, obj: Obj, timestr: string): (r: Step)
    ensures IsSlackTs(timestr) ==> r == Step(obj, [FetchReplies(timestr)])
    ensures !IsSlackTs(timestr) ==> r == ResolveTime(env, obj, timestr, OpGetReplies)
  {
    if IsSlackTs(timestr) then Step(obj, [FetchReplies(timestr)])
    else ResolveTime(env, obj, timestr, OpGetReplies)
  }

  /** `slack_thread_switch_to_latest`: one history query answered by the latest-thread
      handler; nothing when the object has no thread.  The page-size argument is left out. */
  function SwitchToLatest(obj: Obj): (r: Step)
    ensures r.obj == obj
    ensures ThreadOf(obj).None? <==> r.log == []
    ensures ThreadOf(obj).Some? ==>
              r.log == [Api(Request(Get, "conversations.history", [("channel", obj.id)], LatestThreadCallback))]
  {
    if ThreadOf(obj).None? then Step(obj, [])
    else Step(obj, [Api(Request(Get, "conversations.history", [("channel", obj.id)], LatestThreadCallback))])
  }

  /** The line the ambiguity notice gives an entry that has a `ts`. */
  function EntryLine(env: Env, e: Entry): string
    requires e.ts.Some?
  {
    "<font color=\"#" + env.color(e.ts.value) + "\">" + e.ts.value + "</font> (\"" + e.text.GetOr("NULL") + "\")\n"
  }

  /** The lines of the ambiguity notice, one per entry that has a `ts`, in reply order. */
  function Listing(env: Env, entries: seq<Entry>): seq<string> {
    if entries == [] then []
    else (if entries[0].ts.Some? then [EntryLine(env, entries[0])] else []) + Listing(env, entries[1..])
  }

  function Concat(lines: seq<string>): string {
    if lines == [] then "" else lines[0] + Concat(lines[1..])
  }

  /** The lines of the notice are exactly the entries that carry a `ts`. */
  lemma {:induction false} ListingExact(env: Env, entries: seq<Entry>)
    ensures forall i :: 0 <= i < |entries| && entries[i].ts.Some? ==> EntryLine(env, entries[i]) in Listing(env, entries)
    ensures forall l :: l in Listing(env, entries) ==>
              exists i :: 0 <= i < |entries| && entries[i].ts.Some? && l == EntryLine(env, entries[i])
  {
    if entries != [] {
      ListingExact(env, entries[1..]);
      var head := if entries[0].ts.Some? then [EntryLine(env, entries[0])] else [];
      assert Listing(env, entries) == head + Listing(env, entries[1..]);
      forall i | 0 <= i < |entries| && entries[i].ts.Some?
        ensures EntryLine(env, entries[i]) in Listing(env, entries)
      {
        if i > 0 {
          assert entries[i] == entries[1..][i - 1];
        }
      }
      forall l | l in Listing(env, entries)
        ensures exists i :: 0 <= i < |entries| && entries[i].ts.Some? && l == EntryLine(env, entries[i])
      {
        if l in head {
          assert entries[0].ts.Some? && l == EntryLine(env, entries[0]);
        } else {
          var j :| 0 <= j < |entries[1..]| && entries[1..][j].ts.Some? && l == EntryLine(env, entries[1..][j]);
          assert entries[j + 1] == entries[1..][j];
        }
      }
    }
  }

  /** When the reply dispatches to an operation that needs the conversation's thread. */
  predicate ReplyNeedsThread(op: ThreadOp, entries: seq<Entry>) {
    |entries| == 1 && entries[0].ts.Some? && !op.OpGetReplies?
  }

  /** `slack_thread_cb` given the reply's "messages" list: no message gives the "not
      found" notice, several give the ambiguity notice, a single message with a `ts`
      carries out the pending operation on it. */
  function ThreadReply(env: Env, obj: Obj, op: ThreadOp, entries: seq<Entry>): (r: Step)
    requires ReplyNeedsThread(op, entries) ==> ThreadOf(obj).Some?
    ensures |entries| != 1 ==> |r.log| == 1 && r.obj == obj
    ensures |entries| == 0 ==> r.log == [Write(THREAD_NOT_FOUND, MESSAGE_SYSTEM)]
    ensures |entries| > 1 ==> r.log == [Write(AMBIGUOUS + Concat(Listing(env, entries)), MESSAGE_SYSTEM)]
    ensures |entries| == 1 && entries[0].ts.None? ==> r == Step(obj, [])
    ensures |entries| == 1 && entries[0].ts.Some? ==>
              r == match op
                   case OpSwitch => ThreadSwitch(env, obj, entries[0].ts.value)
                   case OpPost(m) => ThreadPost(obj, entries[0].ts.value, Some(m))
                   case OpGetReplies => Step(obj, [FetchReplies(entries[0].ts.value)])
  {
    if |entries| == 0 then Step(obj, [Write(THREAD_NOT_FOUND, MESSAGE_SYSTEM)])
    else if |entries| > 1 then Step(obj, [Write(AMBIGUOUS + Concat(Listing(env, entries)), MESSAGE_SYSTEM)])
    else if entries[0].ts.None? then Step(obj, [])
    else
      var ts := entries[0].ts.value;
      match op
      case OpSwitch => ThreadSwitch(env, obj, ts)
      case OpPost(msg) => ThreadPost(obj, ts, Some(msg))
      case OpGetReplies => Step(obj, [FetchReplies(ts)])
  }

  /** The bounds of the history window are themselves Slack timestamps, whatever the second. */
  lemma {:induction false} WindowBoundsAreTimestamps(obj: Obj, op: ThreadOp, n: int)
    ensures HistoryWindow(obj, op, n).fields[1].0 == "oldest" && IsSlackTs(HistoryWindow(obj, op, n).fields[1].1)
    ensures HistoryWindow(obj, op, n).fields[2].0 == "latest" && IsSlackTs(HistoryWindow(obj, op, n).fields[2].1)
  {
    var d := Decimal(n);
    WindowBoundIsTimestamp(d, ".000000");
    WindowBoundIsTimestamp(d, ".999999");
  }

  lemma WindowBoundIsTimestamp(d: string, frac: string)
    requires '.' !in d && HasDigit(d)
    requires |frac| == 7 && frac[0] == '.' && IsDigit(frac[1]) && '.' !in frac[1..]
    ensures IsSlackTs(d + frac)
  {
    var s := d + frac;
    IndexOfIs(s, '.', |d|);
    assert s[..|d|] == d;
    assert s[|d| + 1..] == frac[1..];
    assert frac[1..][0] == frac[1];
  }

  /** The whole-seconds part of a timestamp: the text before its first dot. */
  function Seconds(ts: string): string {
    ts[..IndexOf(ts, '.')]
  }

  /** The fractional part of a timestamp: the text after its first dot ("" without one). */
  function Fraction(ts: string): string {
    var d := IndexOf(ts, '.');
    if d < |ts| then ts[d + 1..] else ""
  }

  /** The window covers exactly second `n`: both bounds carry `n` (as `%ld` writes it) in
      their whole-seconds part, the oldest with the first microsecond, the latest with the
      last. */
  lemma WindowCoversSecond(obj: Obj, op: ThreadOp, n: int)
    ensures var oldest := HistoryWindow(obj, op, n).fields[1].1;
            Seconds(oldest) == Decimal(n) && Fraction(oldest) == "000000"
    ensures var latest := HistoryWindow(obj, op, n).fields[2].1;
            Seconds(latest) == Decimal(n) && Fraction(latest) == "999999"
    ensures n >= 0 ==> DecimalValue(Seconds(HistoryWindow(obj, op, n).fields[1].1)) == n
  {
    var d := Decimal(n);
    var w := HistoryWindow(obj, op, n);
    assert w.fields[1].1 == d + ".000000";
    assert w.fields[2].1 == d + ".999999";
    SplitsAtDot(d, ".000000");
    SplitsAtDot(d, ".999999");
    assert ".000000"[1..] == "000000";
    assert ".999999"[1..] == "999999";
  }

  lemma SplitsAtDot(d: string, frac: string)
    requires '.' !in d && |frac| >= 1 && frac[0] == '.'
    ensures Seconds(d + frac) == d && Fraction(d + frac) == frac[1..]
  {
    var s := d + frac;
    IndexOfIs(s, '.', |d|);
    assert s[..|d|] == d;
    assert s[|d| + 1..] == frac[1..];
  }

  /** Resolving a clock time and then receiving a reply with the one message of thread `ts`
      ends exactly where the literal timestamp `ts` would have led directly. */
  lemma {:induction false} ResolvedMatchesDirect(env: Env, obj: Obj, timestr: string, msg: string, e: Entry)
    requires ThreadOf(obj).Some? && e.ts.Some? && IsSlackTs(e.ts.value)
    ensures ThreadReply(env, obj, OpSwitch, [e]) == SwitchToTimestamp(env, obj, e.ts.value)
    ensures ThreadReply(env, obj, OpPost(msg), [e]) == PostToTimestamp(env, obj, e.ts.value, msg)
    ensures ThreadReply(env, obj, OpGetReplies, [e]) == GetReplies(env, obj, e.ts.value)
  {
  }

  /** A post to a thread or to the channel leaves the conversation's thread as it was,
      yet the send saw the override. */
  lemma PostsRestoreThread(obj: Obj, ts: string, msg: string)
    requires ThreadOf(obj).Some?
    ensures ThreadTs(ThreadPost(obj, ts, Some(msg)).obj) == ThreadTs(obj)
    ensures ThreadPost(obj, ts, Some(msg)).log[0].threadTs == Some(ts)
    ensures ThreadTs(PostToChannel(obj, msg).obj) == ThreadTs(obj)
    ensures PostToChannel(obj, msg).log[0].threadTs == None
  {
  }

  /** Switching to the channel twice changes nothing the second time but repeats the
      notice; after switching to a thread, switching to the channel clears it again. */
  lemma ChannelSwitchSettles(env: Env, obj: Obj, ts: string)
    requires ThreadOf(obj).Some?
    ensures SwitchToChannel(SwitchToChannel(obj).obj).obj == SwitchToChannel(obj).obj
    ensures SwitchToChannel(ThreadSwitch(env, obj, ts).obj).obj == SwitchToChannel(obj).obj
  {
  }
}

=== FILE: slack_ts.dfy ===
/** `slack_is_slack_ts`: the single-pass recogniser deciding whether a thread argument
    is already a Slack message timestamp ("1234.5678") rather than a clock time. */
module SlackTs {
  import opened Support

  /** The scan's three flags: a digit seen before the dot, the dot, a digit after it. */
  datatype ScanState = ScanState(foundPrefix: bool, foundDot: bool, foundSuffix: bool)

  const START := ScanState(false, false, false)

  /** The `for` loop of `slack_is_slack_ts` from index `i`: digits set the prefix or
      suffix flag, a second dot rejects at once, every other character is skipped. */
  function Scan(s: string, i: nat, st: ScanState): bool
    requires i <= |s|
    decreases |s| - i
  {
    if i == |s| then st.foundPrefix && st.foundDot && st.foundSuffix
    else if IsDigit(s[i]) then
      Scan(s, i + 1, if st.foundDot then st.(foundSuffix := true) else st.(foundPrefix := true))
    else if s[i] == '.' then
      if st.foundDot then false else Scan(s, i + 1, st.(foundDot := true))
    else
      Scan(s, i + 1, st)
  }

  /** What a Slack timestamp looks like: exactly one dot, with a digit somewhere before
      it and a digit somewhere after it; any other characters are allowed. */
  ghost predicate TsShape(s: string) {
    var d := IndexOf(s, '.');
    d < |s| && '.' !in s[d + 1..] && HasDigit(s[..d]) && HasDigit(s[d + 1..])
  }

  /** The flags say exactly what `TsShape` needs to know about the prefix `t` read so far,
      and `t` holds at most one dot. */
  ghost predicate Summarises(t: string, st: ScanState) {
    var d := IndexOf(t, '.');
    if d < |t| then
      st.foundDot && '.' !in t[d + 1..] && st.foundPrefix == HasDigit(t[..d]) && st.foundSuffix == HasDigit(t[d + 1..])
    else
      !st.foundDot && st.foundPrefix == HasDigit(t) && !st.foundSuffix
  }

  lemma HasDigitSnoc(t: string, c: char)
    ensures HasDigit(t + [c]) == (HasDigit(t) || IsDigit(c))
  {
    if HasDigit(t) {
      var k :| 0 <= k < |t| && IsDigit(t[k]);
      assert (t + [c])[k] == t[k];
    }
    if IsDigit(c) {
      assert (t + [c])[|t|] == c;
    }
    if HasDigit(t + [c]) && !IsDigit(c) {
      var k :| 0 <= k < |t| + 1 && IsDigit((t + [c])[k]);
      assert k < |t| && t[k] == (t + [c])[k];
    }
  }

  /** Reading one more character keeps the flags a summary of the prefix. */
  lemma {:induction false} SummarisesStep(t: string, c: char, st: ScanState)
    requires Summarises(t, st)
    requires !(c == '.' && st.foundDot)
    ensures Summarises(t + [c], if IsDigit(c) then (if st.foundDot then st.(foundSuffix := true) else st.(foundPrefix := true))
                                else if c == '.' then st.(foundDot := true) else st)
  {
    var t' := t + [c];
    var d := IndexOf(t, '.');
    if d < |t| {
      IndexOfIs(t', '.', d);
      assert t'[..d] == t[..d];
      assert t'[d + 1..] == t[d + 1..] + [c];
      HasDigitSnoc(t[d + 1..], c);
    } else if c == '.' {
      IndexOfIs(t', '.', |t|);
      assert t'[..|t|] == t;
      assert t'[|t| + 1..] == [];
    } else {
      IndexOfIs(t', '.', |t'|);
      HasDigitSnoc(t, c);
    }
  }

  /** From any position whose flags summarise what was read, the scan decides `TsShape`. */
  lemma {:induction false} ScanDecidesShape(s: string, i: nat, st: ScanState)
    requires i <= |s|
    requires Summarises(s[..i], st)
    ensures Scan(s, i, st) == TsShape(s)
    decreases |s| - i
  {
    if i == |s| {
      assert s[..i] == s;
    } else {
      var c := s[i];
      assert s[..i + 1] == s[..i] + [c];
      if c == '.' && st.foundDot {
        var d := IndexOf(s[..i], '.');
        IndexOfIs(s, '.', d);
        assert s[d + 1..][i - d - 1] == '.';
      } else {
        SummarisesStep(s[..i], c, st);
        var st' := if IsDigit(c) then (if st.foundDot then st.(foundSuffix := true) else st.(foundPrefix := true))
                   else if c == '.' then st.(foundDot := true) else st;
        ScanDecidesShape(s, i + 1, st');
      }
    }
  }

  /** `slack_is_slack_ts(str)`: true exactly for strings of the timestamp shape. */
  function IsSlackTs(s: string): (r: bool)
    ensures r <==> TsShape(s)
  {
    assert s[..0] == [];
    ScanDecidesShape(s, 0, START);
    Scan(s, 0, START)
  }

  /** A string with a single dot, a digit before it and a digit after it is accepted. */
  lemma AcceptsOneDot(s: string, d: nat, i: nat, j: nat)
    requires d < |s| && s[d] == '.'
    requires forall k :: 0 <= k < |s| && k != d ==> s[k] != '.'
    requires i < d && IsDigit(s[i])
    requires d < j < |s| && IsDigit(s[j])
    ensures IsSlackTs(s)
  {
    IndexOfIs(s, '.', d);
    assert s[..d][i] == s[i];
    assert s[d + 1..][j - d - 1] == s[j];
  }

  /** Two dots anywhere reject the string, whatever surrounds them. */
  lemma RejectsTwoDots(s: string, a: nat, b: nat)
    requires a < b < |s| && s[a] == '.' && s[b] == '.'
    ensures !IsSlackTs(s)
  {
    var d := IndexOf(s, '.');
    assert d <= a;
    assert s[d + 1..][b - d - 1] == '.';
  }

  /** Every accepted string has its dot with a digit on each side of it, and no other dot. */
  lemma AcceptedHasOneDot(s: string)
    requires IsSlackTs(s)
    ensures exists d, i, j :: 0 <= i < d < j < |s| && s[d] == '.' && IsDigit(s[i]) && IsDigit(s[j])
    ensures forall a, b :: 0 <= a < b < |s| && s[a] == '.' ==> s[b] != '.'
  {
    var d := IndexOf(s, '.');
    var i :| 0 <= i < |s[..d]| && IsDigit(s[..d][i]);
    var j :| 0 <= j < |s[d + 1..]| && IsDigit(s[d + 1..][j]);
    assert s[..d][i] == s[i] && s[d + 1..][j] == s[d + 1 + j];
  }
}

=== FILE: support.dfy ===
/** Small helpers shared by the model: an Option type standing for C's nullable
    pointers, a first-occurrence search, digit tests and the `%ld` decimal rendering. */
module Support {

  /** A nullable value: `None` is a NULL pointer. */
  datatype Option<+T> = None | Some(value: T) {

    /** The value, or `default` when NULL (C's `p ? p : default`). */
    function GetOr(default: T): T {
      match this
      case Some(v) => v
      case None => default
    }
  }

  predicate IsDigit(c: char) {
    '0' <= c <= '9'
  }

  /** True when some character of `s` is a decimal digit. */
  ghost predicate HasDigit(s: string) {
    exists k :: 0 <= k < |s| && IsDigit(s[k])
  }

  /** Index of the first `c` in `s`, or `|s|` when `s` has none (`strchr`). */
  function IndexOf<T(==)>(s: seq<T>, c: T): (i: nat)
    ensures i <= |s|
    ensures forall k :: 0 <= k < i ==> s[k] != c
    ensures i < |s| ==> s[i] == c
    ensures i == |s| <==> c !in s
  {
    if |s| == 0 then 0
    else if s[0] == c then 0
    else 1 + IndexOf(s[1..], c)
  }

  /** The three properties above determine the index: any `i` with them is `IndexOf(s, c)`. */
  lemma IndexOfIs<T>(s: seq<T>, c: T, i: nat)
    requires i <= |s|
    requires forall k :: 0 <= k < i ==> s[k] != c
    requires i < |s| ==> s[i] == c
    ensures IndexOf(s, c) == i
  {
  }

  function DigitChar(d: nat): (c: char)
    requires d < 10
    ensures IsDigit(c)
  {
    ('0' as int + d) as char
  }

  function DigitValue(c: char): (d: nat)
    requires IsDigit(c)
    ensures d < 10 && DigitChar(d) == c
  {
    c as int - '0' as int
  }

  /** Decimal digits of `n`, most significant first, without leading zeros. */
  function NatDecimal(n: nat): (s: string)
    ensures |s| >= 1
    ensures forall k :: 0 <= k < |s| ==> IsDigit(s[k])
    ensures s[0] != '0' || n == 0
    ensures n < 10 ==> |s| == 1
  {
    if n < 10 then [DigitChar(n)] else NatDecimal(n / 10) + [DigitChar(n % 10)]
  }

  /** The value of a string of decimal digits. */
  function DecimalValue(s: string): nat
    requires forall k :: 0 <= k < |s| ==> IsDigit(s[k])
  {
    if |s| == 0 then 0 else 10 * DecimalValue(s[..|s| - 1]) + DigitValue(s[|s| - 1])
  }

  /** Reading back the digits `NatDecimal` writes gives the number written. */
  lemma {:induction false} NatDecimalRoundTrip(n: nat)
    ensures DecimalValue(NatDecimal(n)) == n
  {
    var s := NatDecimal(n);
    if n >= 10 {
      NatDecimalRoundTrip(n / 10);
      assert s[..|s| - 1] == NatDecimal(n / 10);
      assert DigitValue(s[|s| - 1]) == n % 10;
    } else {
      assert DigitValue(s[0]) == n;
    }
  }

  /** `printf("%ld", n)`: an optional minus sign followed by the digits of `|n|`. */
  function Decimal(n: int): (s: string)
    ensures '.' !in s
    ensures HasDigit(s)
    ensures n >= 0 ==> (forall k :: 0 <= k < |s| ==> IsDigit(s[k])) && DecimalValue(s) == n
    ensures n < 0 ==> s[0] == '-' && (forall k :: 1 <= k < |s| ==> IsDigit(s[k])) && DecimalValue(s[1..]) == -n
    ensures n >= 0 ==> s[0] != '0' || n == 0
    ensures n == 0 ==> s == "0"
    ensures n < 0 ==> |s| >= 2 && s[1] != '0'
  {
    var s := if n < 0 then "-" + NatDecimal(-n) else NatDecimal(n);
    assert IsDigit(s[|s| - 1]);
    if n >= 0 then NatDecimalRoundTrip(n); s
    else
      assert s[1..] == NatDecimal(-n);
      NatDecimalRoundTrip(-n);
      s
  }
}

=== FILE: thread_args.dfy ===
/** The argument grammar of the `thread` / `th` commands: the argument is split once on
    its first space (`g_strsplit(line, " ", 2)`) and the pieces pick one of six actions. */
module ThreadArgs {
  import opened Support

  /** What `cmd_thread` does with its argument. */
  datatype ThreadAction =
    | ActLatest                                  // slack_thread_switch_to_latest
    | ActBadArgument                             // the "First argument must be ..." notice
    | ActChannel                                 // slack_thread_switch_to_channel
    | ActPostChannel(msg: string)                // slack_thread_post_to_channel
    | ActTimestamp(ts: string)                   // slack_thread_switch_to_timestamp
    | ActPostTimestamp(ts: string, msg: string)  // slack_thread_post_to_timestamp

  /** `g_strsplit(s, " ", 2)`: no pieces for the empty string, the whole string when it has
      no space, otherwise the text before the first space and everything after it. */
  function SplitOnce(s: string): (parts: seq<string>)
    ensures |parts| <= 2
    ensures parts == [] <==> s == ""
    ensures |parts| == 1 ==> parts[0] == s && ' ' !in s
    ensures |parts| == 2 ==> s == parts[0] + " " + parts[1] && ' ' !in parts[0]
  {
    if s == "" then []
    else
      var i := IndexOf(s, ' ');
      if i == |s| then [s]
      else
        assert s == s[..i] + " " + s[i + 1..];
        assert forall k :: 0 <= k < i ==> s[..i][k] == s[k];
        [s[..i], s[i + 1..]]
  }

  /** `cmd_thread`'s decision, from `args[0]` (None when `args` or `args[0]` is NULL). */
  function ParseThreadArgument(arg: Option<string>): (a: ThreadAction)
    ensures a == ActLatest <==> arg.None? || arg == Some("")
    ensures a == ActChannel ==> arg == Some("/")
    ensures a.ActPostChannel? ==> arg == Some("/ " + a.msg)
    ensures a.ActTimestamp? ==> arg == Some(a.ts) && ' ' !in a.ts
    ensures a.ActPostTimestamp? ==> arg == Some(a.ts + " " + a.msg) && ' ' !in a.ts
  {
    if arg.None? then ActLatest
    else
      var split := SplitOnce(arg.value);
      if |split| == 0 then ActLatest
      else
        var head := split[0];
        if |head| > 0 && head[0] == '/' then
          assert |head| == 1 ==> head == "/";
          if |head| > 1 then ActBadArgument
          else if |split| == 1 then ActChannel
          else
            assert arg.value == head + " " + split[1] && head + " " == "/ ";
            ActPostChannel(split[1])
        else if |split| == 1 then ActTimestamp(head)
        else ActPostTimestamp(head, split[1])
  }

  /** A timestamp token the grammar can carry: no space, and not starting with '/'. */
  predicate TsToken(ts: string) {
    ' ' !in ts && (ts == "" || ts[0] != '/')
  }

  /** The actions that address a channel or a thread, each with a token the grammar can carry.
      A timestamp to switch to is never empty: an empty argument means "latest". */
  predicate Addressing(a: ThreadAction) {
    match a
    case ActChannel => true
    case ActPostChannel(_) => true
    case ActTimestamp(ts) => TsToken(ts) && ts != ""
    case ActPostTimestamp(ts, _) => TsToken(ts)
    case _ => false
  }

  /** The argument a user types to obtain an addressing action. */
  function ArgumentFor(a: ThreadAction): string
    requires Addressing(a)
  {
    match a
    case ActChannel => "/"
    case ActPostChannel(msg) => "/ " + msg
    case ActTimestamp(ts) => ts
    case ActPostTimestamp(ts, msg) => ts + " " + msg
  }

  /** Only an absent or empty argument switches to the latest thread. */
  lemma ParseLatestExactly(arg: Option<string>)
    ensures ParseThreadArgument(arg) == ActLatest <==> arg.None? || arg == Some("")
  {
    if arg.Some? && arg.value != "" {
      var split := SplitOnce(arg.value);
      assert |split| >= 1;
    }
  }

  /** The notice is given exactly when the first word is '/' followed by more characters. */
  lemma ParseBadExactly(s: string)
    ensures ParseThreadArgument(Some(s)) == ActBadArgument <==> |s| >= 2 && s[0] == '/' && s[1] != ' '
  {
    if s != "" {
      var split := SplitOnce(s);
      var head := split[0];
      if |split| == 2 {
        assert s == head + " " + split[1];
        if |head| > 0 {
          assert s[0] == head[0];
        }
        if |head| > 1 {
          assert s[1] == head[1];
        }
        if |head| == 1 {
          assert s[1] == ' ';
        }
        if |head| == 0 {
          assert s[0] == ' ';
        }
      }
    }
  }

  /** Every argument that addresses something is the text `ArgumentFor` writes for the
      action it parses to: the split keeps `rest` verbatim, further spaces included. */
  lemma {:induction false} ParseThenArgument(s: string)
    requires ParseThreadArgument(Some(s)) !in {ActLatest, ActBadArgument}
    ensures Addressing(ParseThreadArgument(Some(s)))
    ensures ArgumentFor(ParseThreadArgument(Some(s))) == s
  {
    var split := SplitOnce(s);
    var head := split[0];
    if |split| == 2 {
      assert s == head + " " + split[1];
    }
    if |head| > 0 && head[0] == '/' {
      assert head == "/";
    }
  }

  /** Typing the argument `ArgumentFor(a)` yields `a` again. */
  lemma {:induction false} ArgumentThenParse(a: ThreadAction)
    requires Addressing(a)
    ensures ParseThreadArgument(Some(ArgumentFor(a))) == a
  {
    var s := ArgumentFor(a);
    var split := SplitOnce(s);
    match a
    case ActChannel =>
    case ActPostChannel(msg) =>
      IndexOfIs(s, ' ', 1);
      assert s[..1] == "/";
      assert s[2..] == msg;
    case ActTimestamp(ts) =>
    case ActPostTimestamp(ts, msg) =>
      IndexOfIs(s, ' ', |ts|);
      assert s[..|ts|] == ts;
      assert s[|ts| + 1..] == msg;
  }
}
